=== FILE: README.md ===
# JobHunter scan, modelled in Dafny

JobHunter's `scan_jobs` reads a job feed and works through the entries in feed order. For each entry it:

1. Skips the entry when its link is already in the `seen_jobs` table.
2. Otherwise, lowercases the title and tests whether any configured skill keyword occurs in it as a substring.
3. For a matching entry, sends an alert through the messaging API.
4. Inserts the link into the table and commits only when the API answered 200.

This project models that loop, the skill matcher and the skill list. It then proves what the scan guarantees:
- links already in the table are skipped;
- only matching titles are alerted;
- a link is committed only after a delivered alert;
- failed alerts are retried;
- after a 200 reply for a link, no later alert is sent for it (`ScanProperties.RecordedAtMostOnce`, `ScanProperties.NeverNotifiedAgain`). In the source this needs three conditions: the `print` at line 61 does not raise, the `INSERT` and commit at lines 62-63 succeed, and the process is not stopped between lines 57 and 63 (see "## Left out"). An alert that got another status or raised is sent again, by a later entry with the same link or by the next scan (`ScanProperties.RetryOnNextScan`);
- a second scan of the same feed is silent.

Modules, one file each:

- `Wrappers` (`wrappers.dfy`): `Option` and `Result`.
- `Text` (`text.dfy`): ASCII lowercasing and substring search (`pat in s`). Substring search is defined recursively as a search and proved equal to "occurs at some position".
- `Skills` (`skills.dfy`): `TargetSkills`, the matcher `Matches`, and the executable `Contains` / `MatchTitle` proved against it. It also holds example titles.
- `SeenStore` (`store.dfy`): the `seen_jobs` table as a set of links, with `Open` (`CREATE TABLE IF NOT EXISTS`) and `Insert` (a plain `INSERT` into a PRIMARY KEY column).
- `Notifier` (`notifier.dfy`): what one API call returns, either an HTTP status or an exception from the HTTP client.
- `JobScan` (`scan.dfy`): the scan itself.
  - `Step` processes one entry.
  - `Scan` is the recursive pass over the feed.
  - `ScanJobs` is `init_db` followed by the pass.
  - It also holds a closed form of the resulting table and of the notifier calls, independent of the recursion.
- `ScanProperties` (`scan_properties.dfy`): the promised properties, derived from that closed form.
- `ScanLoop` (`scan_loop.dfy`): the loop as written in `scan_jobs`, using a mutable table and an early exit. It is proved to compute exactly `JobScan.Scan`.
- `Scenarios` (`scenarios.dfy`): lemmas that evaluate `ScanJobs` on small concrete feeds.

The feed is an input sequence of `Entry(title, link)`. The notifier is an oracle:
- `replies[i]` is what the API would answer if it were called for entry `i`;
- it is consulted only when the scan calls the notifier for that entry;
- a reply counts as delivered exactly when it is `HttpStatus(200)` (`response.status_code == 200`).

A `TransportError` reply stands for an exception raised by `requests.post`. Nothing in `scan_jobs` catches it, so it ends the scan at that entry. Rows committed before it are kept. This entry's fate is `Aborted`, and the result's `completed` flag is false.

## What the code does at its edges

- **Matching.** `skill in title` is a plain substring test with no word-boundary check, so "ai" matches inside "email" and "domain" (`Skills.SubstringInsideWordMatches`).
- **Matcher result.** `any(...)` only answers whether some skill matched, so the model's matcher is a predicate. A title naming several skills triggers a single alert.
- **Escaping.** The title goes into the alert as the feed gave it, with no markup escaping. The message text is not modelled. The title passed to the notifier is the feed's title unchanged (`JobScan.Scan`'s calls carry `entry.title`).
- **Notifier exceptions.** Nothing catches an exception from `requests.post`, so it ends the scan at that entry (`JobScan.AbortEndsScan`, `Scenarios.ExceptionStopsScan`).
- **Inserting a link.** The insert is a plain `INSERT` into a PRIMARY KEY column, which raises on a duplicate (`SeenStore.InsertTwiceFails`). The scan only inserts a link it has just found missing, so this error cannot occur during a scan: `ScanLoop.ProcessEntry` verifies with the insert's result required to be a success.
- **Feed.** `feedparser.parse` itself reports fetch and parse problems through the object it returns rather than by raising. The model takes the resulting entries as given, each with a title and a link; an item lacking either is listed under "## Left out".

## Model

| member | source | states |
|---|---|---|
| Text.Lower | job_bot.py:47 | lowercasing keeps the length, leaves no upper-case ASCII letter, and maps each character on its own: `A`-`Z` to `a`-`z`, every other character unchanged |
| Text.OccursIffSomewhere | job_bot.py:56 | `skill in title` holds exactly when the skill is a contiguous run of the title at some position |
| Skills.ContainsAnyIff | job_bot.py:56 | `any(skill in title for skill in skills)` holds exactly when some skill of the list occurs in the title |
| Skills.Contains | job_bot.py:56 | a left-to-right search answers true exactly when the pattern occurs in the text at some position |
| Skills.MatchTitle | job_bot.py:47-56 | the executable test lowercases the title and then tries the skills in order; it answers true exactly when some skill occurs in the lowercased title, which is the `Matches` predicate |
| Skills.TargetSkillsAreLowercase | job_bot.py:12-16 | every configured skill has no upper-case letter and is at least two characters long |
| Skills.TargetSkillsUnchangedByLower | job_bot.py:12-16 | lowercasing any configured skill gives the skill back, so comparing them with the lowercased title loses nothing |
| Skills.MatchesInAnyCase | job_bot.py:47-56 | a title matches exactly when some skill appears in it with its letters in any case |
| Skills.SubstringInsideWordMatches | job_bot.py:56 | with the configured skills, "ai" matches inside "email" and "Domain": there is no word-boundary check |
| Skills.UpperCaseSkillMatches | job_bot.py:47-56 | with the configured skills, an upper-case "AI" in the title matches |
| Skills.PhraseSkillMatches | job_bot.py:56 | with the configured skills, the two-word skill "computer vision" matches as a phrase |
| Skills.TwoSkillTitleMatches | job_bot.py:56 | with the configured skills, a title naming both "python" and "backend" matches |
| Skills.OfficeManagerDoesNotMatch | job_bot.py:12-16 | no configured skill occurs in "office manager" |
| SeenStore.Open | job_bot.py:18-28 | `CREATE TABLE IF NOT EXISTS`: an existing table is opened with exactly its rows, and a missing table is created empty |
| SeenStore.Insert | job_bot.py:62 | an insert succeeds exactly when the link is not yet a key; it then adds exactly that one row, and otherwise fails with a duplicate-key error naming the link |
| SeenStore.InsertTwiceFails | job_bot.py:24 | because `link` is the PRIMARY KEY, inserting the same link a second time fails |
| JobScan.Step | job_bot.py:47-63 | an entry is skipped exactly when its link is stored; the notifier is called exactly when the link is new and the title matches; the entry is recorded exactly when a called notifier answers 200; it is aborted exactly when a called notifier raises; the table gains the link only when the entry is recorded |
| JobScan.Scan | job_bot.py:46-63 | the table only grows, and only by links of the feed; there are no more notifier calls than processed entries and no more processed entries than feed entries; a completed scan processed every entry; a scan that stopped early stopped at an aborted entry (one call per notified entry, in feed order, is `JobScan.CallsAreFreshMatches`) |
| JobScan.ScanJobs | job_bot.py:43-63 | a scan keeps every row already on disk; on a fresh database the table ends holding only links of the feed |
| JobScan.AbortEndsScan | job_bot.py:36-57 | an exception from the notifier can only happen at the last processed entry, and a scan that reached the end of the feed had none |
| JobScan.SeenClosedForm | job_bot.py:46-63 | the final table is the initial table plus the links of the processed entries that matched and whose alert was delivered, and nothing else |
| JobScan.FateAt | job_bot.py:46-63 | the fate of entry `i` is that of a single step against the initial table plus the links delivered before `i` |
| JobScan.CallsAreFreshMatches | job_bot.py:46-57 | the notifier calls are, in feed order, exactly the processed entries that matched and whose link was not stored when reached |
| ScanProperties.SeenBeforeBetween | job_bot.py:51-63 | the table when any entry is reached lies between the initial and the final table |
| ScanProperties.QuietScan | job_bot.py:51-56 | when every matching entry's link is already stored, the scan makes no call, changes nothing and completes |
| ScanProperties.SkipOnSeen | job_bot.py:51-53 | an entry is skipped exactly when its link is in the table as it stands when the entry is reached, and so whenever the link was stored at the start; a feed of stored links sends nothing and leaves the table unchanged |
| ScanProperties.CallsMatchAndAreNew | job_bot.py:51-57 | every notifier call is for a matching title, carries the feed's own title and link, and is for a link that was not stored at the start |
| ScanProperties.UnmatchedNeverStored | job_bot.py:56-63 | a new link none of whose entries match is not in the table after the scan |
| ScanProperties.StoredIffRecorded | job_bot.py:57-63 | a link is added by the scan exactly when some processed entry with that link was recorded, and a recorded entry had a 200 reply and its link is stored |
| ScanProperties.FailureLeavesLinkOut | job_bot.py:57-63 | an alert that failed or raised leaves its link out of the table unless another entry with that link was recorded |
| ScanProperties.RetryOnNextScan | job_bot.py:51-63 | when the alert for entry `i` was rejected or raised and no other entry of the feed has its link, the link is absent after the scan; a second scan over the same feed, started from that table, that gets as far as entry `i` calls the notifier for it again |
| ScanProperties.RecordedAtMostOnce | job_bot.py:51-63 | once an entry is recorded, every later entry of the same scan with that link is skipped |
| ScanProperties.NeverNotifiedAgain | job_bot.py:51-63 | a link recorded in one scan gets no notifier call in any later scan starting from its table |
| ScanProperties.RescanIsSilent | job_bot.py:51-63 | after a completed scan with no rejected alert, scanning the same feed again sends nothing and changes nothing, whatever the notifier would answer |
| ScanLoop.ProcessEntry | job_bot.py:47-63 | the loop body for one entry (lookup, match, notify, insert) yields the same fate and table as `JobScan.Step`; its insert never hits the duplicate-key error |
| ScanLoop.RunScan | job_bot.py:46-63 | the loop with its early exit on a notifier exception computes exactly the recursive `JobScan.Scan` |
| ScanLoop.RunScanJobs | job_bot.py:43-63 | opening the table and running the loop computes exactly `JobScan.ScanJobs` |
| Scenarios.MatchingEntryAlone | job_bot.py:46-63 | on a fresh database, a feed of one matching and one non-matching entry, both delivered, sends one alert and stores only the matching link |
| Scenarios.FailedAlertStoresNothing | job_bot.py:57-63 | the same feed with a 500 reply for the matching entry sends the alert and stores nothing |
| Scenarios.ExceptionStopsScan | job_bot.py:36-57 | an exception from the notifier at the first entry stops the scan there and keeps the existing rows |
| Scenarios.StoredLinkIsSkipped | job_bot.py:51-53 | an entry whose link is stored gets no call and no change, whatever its title and reply |

## Left out

- Feed fetching and parsing with `feedparser.parse` (job_bot.py:42): network I/O. The entries are an input sequence.
- The messaging request itself (job_bot.py:30-37): the URL, the message text, the HTML payload and the credentials from the environment (job_bot.py:8-9). The notifier is an oracle of replies, and the message text is not modelled.
- Lowercasing: `str.lower()` in Python is full Unicode, and the model lowercases only the ASCII letters `A`-`Z`. A non-ASCII letter whose Python lowercase is not ASCII cannot take part in a match with the ASCII skills either way. Two letters do lowercase to ASCII: the Kelvin sign U+212A becomes `k`, and U+0130 (capital I with dot above) becomes `i` followed by U+0307. So a title such as "BAC\u212AEND" or "A\u0130RLINE" matches ("backend", "ai") in the source but not in the model.
- Feed items without a title or a link: at job_bot.py:47-48, `entry.title` and `entry.link` are attribute reads that raise `AttributeError` for such an item (RSS 2.0 allows an item with no title). Nothing catches it, so in the source the scan stops at that entry with no notifier call, and an item that stays in the feed stops every later scan at the same place, so the entries after it are never reached. The model's `Entry` always has both fields, so this stop is not modelled.
- `time.sleep(1)` after each delivery (job_bot.py:64): it does not affect the table or the calls.
- The `print` calls (job_bot.py:41, 61, 67): the model assumes they never raise. The one at line 61 runs after a 200 reply and before the `INSERT`. If it raised (for instance a UnicodeEncodeError for a title stdout cannot encode, or a broken pipe), the alert would have gone out, the link would not be stored and the scan would stop. The next scan would then alert for that entry again. In the model every delivered alert is recorded (`JobScan.Step`); there is no fate "delivered but not recorded". So the guarantee that no alert follows a 200 reply for the same link (`ScanProperties.RecordedAtMostOnce`, `ScanProperties.NeverNotifiedAgain`) describes the source only for runs in which that `print` does not raise; the two lines below name the other conditions it needs.
- Connection, cursor and `conn.close()` (job_bot.py:43-44, 66): the table is a value. Each insert is committed at once, so a crash leaves the table as it stood after the last recorded entry. The alert in progress may already have been delivered, though. If the process is stopped between the notifier call (line 57) and the commit (line 63), its link is not stored and the next scan alerts for it again. The model has no such interruption, so `ScanProperties.RecordedAtMostOnce` and `ScanProperties.NeverNotifiedAgain` hold in the source only when the process is not stopped there.
- SQLite errors other than the duplicate key: not modelled. If the `INSERT` or `conn.commit()` at lines 62-63 raised (for example `sqlite3.OperationalError` for a locked database or a full disk), the scan would stop after a delivered alert with its link not stored, and the next scan would alert for it again. So `ScanProperties.RecordedAtMostOnce` and `ScanProperties.NeverNotifiedAgain` hold in the source only when the insert and the commit succeed.
- The process entry point (job_bot.py:69-70): a call of `scan_jobs`.

=== FILE: notifier.dfy ===
/**
 * The notifier `send_telegram_alert` seen from the scan: one HTTP request per
 * call, whose outcome is supplied from outside the model.
 */
module Notifier {

  /**
   * What one call to the messaging API comes back with: an HTTP status code, or
   * an exception raised by the HTTP client (connection refused, timeout, ...),
   * which the notifier does not catch.
   */
  datatype Reply = HttpStatus(code: int) | TransportError

  /** The notifier reports success exactly when the status code is 200. */
  predicate Delivered(reply: Reply) {
    reply.HttpStatus? && reply.code == 200
  }
}

=== FILE: scan.dfy ===
/**
 * The scan loop of the job bot. Each feed entry, in feed order, is checked
 * against the seen-links table, then against the skill filter; a matching
 * unseen entry is sent to the notifier, and its link is inserted into the
 * table only when the notifier reports success. An exception raised by the
 * notifier's HTTP client is not caught and ends the scan there, with the rows
 * already committed kept.
 *
 * The notifier is an oracle: `replies[i]` is what the messaging API answers if
 * the notifier is called for entry `i`, and it is consulted only then.
 */
module JobScan {
  import opened Wrappers
  import opened Skills
  import opened SeenStore
  import opened Notifier

  /** One feed entry: its title and its link, the link being the deduplication key. */
  datatype Entry = Entry(title: string, link: string)

  /** The arguments of one notifier call: the title as the feed gave it, and the link. */
  datatype Call = Call(title: string, link: string)

  /** What became of one processed entry. */
  datatype Fate =
    | AlreadySeen   // link already in the table: skipped
    | NoMatch       // no skill in the lowercased title: skipped
    | Recorded      // notifier succeeded, link inserted and committed
    | Rejected      // notifier answered with a status other than 200: nothing stored
    | Aborted       // notifier raised: nothing stored, and the scan stops
  {
    /** The notifier was called for this entry. */
    predicate Notified() {
      Recorded? || Rejected? || Aborted?
    }
  }

  /** The fate of one entry and the table after it. */
  datatype StepResult = StepResult(fate: Fate, seen: set<string>)

  /**
   * The outcome of a scan: the final table, the notifier calls in the order they
   * were made, the fate of each processed entry, and whether the scan reached
   * the end of the feed.
   */
  datatype ScanResult = ScanResult(seen: set<string>, calls: seq<Call>, fates: seq<Fate>, completed: bool)

  /** The links of a feed. */
  ghost function LinksOf(entries: seq<Entry>): set<string> {
    set e | e in entries :: e.link
  }

  /** Processes one entry against the table `seen`. */
  function Step(seen: set<string>, e: Entry, reply: Reply, skills: seq<string>): (r: StepResult)
    ensures r.fate.AlreadySeen? <==> e.link in seen
    ensures r.fate.Notified() <==> e.link !in seen && Matches(e.title, skills)
    ensures r.fate.Recorded? <==> r.fate.Notified() && Delivered(reply)
    ensures r.fate.Aborted? <==> r.fate.Notified() && reply.TransportError?
    ensures r.seen == if r.fate.Recorded? then seen + {e.link} else seen
  {
    if e.link in seen then StepResult(AlreadySeen, seen)
    else if !Matches(e.title, skills) then StepResult(NoMatch, seen)
    else match reply
      case TransportError => StepResult(Aborted, seen)
      case HttpStatus(code) =>
        if code == 200 then
          var inserted := Insert(seen, e.link);
          StepResult(Recorded, inserted.value)
        else
          StepResult(Rejected, seen)
  }

  /** The notifier call an entry's fate stands for, if any. */
  function CallFor(e: Entry, fate: Fate): seq<Call> {
    if fate.Notified() then [Call(e.title, e.link)] else []
  }

  /** One scan over `entries`, starting from the table `seen`. */
  function Scan(entries: seq<Entry>, replies: seq<Reply>, seen: set<string>, skills: seq<string>): (r: ScanResult)
    requires |replies| == |entries|
    ensures seen <= r.seen <= seen + LinksOf(entries)
    ensures |r.calls| <= |r.fates| <= |entries|
    ensures r.completed ==> |r.fates| == |entries|
    ensures !r.completed ==> |r.fates| > 0 && r.fates[|r.fates| - 1].Aborted?
    decreases |entries|
  {
    if |entries| == 0 then ScanResult(seen, [], [], true)
    else
      var step := Step(seen, entries[0], replies[0], skills);
      var call := CallFor(entries[0], step.fate);
      if step.fate.Aborted? then
        var fates := [step.fate];
        assert fates[0].Aborted?;
        ScanResult(step.seen, call, fates, false)
      else
        var rest := Scan(entries[1..], replies[1..], step.seen, skills);
        assert LinksOf(entries) == {entries[0].link} + LinksOf(entries[1..]);
        ScanResult(rest.seen, call + rest.calls, [step.fate] + rest.fates, rest.completed)
  }

  /**
   * `scan_jobs`: open (or create) the table, then scan the feed. `existing` is
   * the table as found on disk, `None` when the database has no table yet.
   */
  function ScanJobs(entries: seq<Entry>, replies: seq<Reply>, existing: Option<set<string>>): (r: ScanResult)
    requires |replies| == |entries|
    ensures existing.Some? ==> existing.value <= r.seen
    ensures existing.None? ==> r.seen <= LinksOf(entries)
  {
    Scan(entries, replies, Open(existing), TargetSkills)
  }

  /** A scan is its first step followed by the scan of the rest, unless that step aborted. */
  lemma ScanCons(entries: seq<Entry>, replies: seq<Reply>, seen: set<string>, skills: seq<string>)
    requires |replies| == |entries| > 0
    ensures var step := Step(seen, entries[0], replies[0], skills);
      var rest := Scan(entries[1..], replies[1..], step.seen, skills);
      Scan(entries, replies, seen, skills)
      == if step.fate.Aborted? then ScanResult(step.seen, CallFor(entries[0], step.fate), [step.fate], false)
         else ScanResult(rest.seen, CallFor(entries[0], step.fate) + rest.calls, [step.fate] + rest.fates, rest.completed)
  {
  }

  /** A feed of one entry: the scan is that entry's step. */
  lemma ScanSingle(e: Entry, reply: Reply, seen: set<string>, skills: seq<string>)
    ensures var step := Step(seen, e, reply, skills);
      Scan([e], [reply], seen, skills) == ScanResult(step.seen, CallFor(e, step.fate), [step.fate], !step.fate.Aborted?)
  {
    assert [e][1..] == [] && [reply][1..] == [];
  }

  /** A feed of two entries whose first step does not abort: the two steps one after the other. */
  lemma ScanPair(a: Entry, b: Entry, ra: Reply, rb: Reply, seen: set<string>, skills: seq<string>)
    requires !Step(seen, a, ra, skills).fate.Aborted?
    ensures var first := Step(seen, a, ra, skills);
      var second := Step(first.seen, b, rb, skills);
      Scan([a, b], [ra, rb], seen, skills)
      == ScanResult(second.seen, CallFor(a, first.fate) + CallFor(b, second.fate), [first.fate, second.fate], !second.fate.Aborted?)
  {
    var first := Step(seen, a, ra, skills);
    ScanCons([a, b], [ra, rb], seen, skills);
    assert [a, b][1..] == [b] && [ra, rb][1..] == [rb];
    ScanSingle(b, rb, first.seen, skills);
  }

  /**
   * A notifier exception ends the scan: only the last processed entry can be
   * aborted, and a scan that reached the end of the feed has no aborted entry.
   */
  lemma {:induction false} AbortEndsScan(entries: seq<Entry>, replies: seq<Reply>, seen: set<string>, skills: seq<string>)
    requires |replies| == |entries|
    ensures forall i ::
              0 <= i < |Scan(entries, replies, seen, skills).fates| && Scan(entries, replies, seen, skills).fates[i].Aborted?
              ==> (i == |Scan(entries, replies, seen, skills).fates| - 1 && !Scan(entries, replies, seen, skills).completed)
    decreases |entries|
  {
    if |entries| > 0 {
      var step := Step(seen, entries[0], replies[0], skills);
      if !step.fate.Aborted? {
        var r := Scan(entries, replies, seen, skills);
        var rest := Scan(entries[1..], replies[1..], step.seen, skills);
        AbortEndsScan(entries[1..], replies[1..], step.seen, skills);
        assert r.fates == [step.fate] + rest.fates && r.completed == rest.completed;
        forall i | 0 <= i < |r.fates| && r.fates[i].Aborted?
          ensures i == |r.fates| - 1 && !r.completed
        {
          assert i != 0;
          assert rest.fates[i - 1] == r.fates[i];
        }
      }
    }
  }

  // ---------------------------------------------------------------------------
  // A closed form of the scan, independent of the entry-by-entry recursion
  // ---------------------------------------------------------------------------

  /** The links of the matching entries among `entries` whose reply is a delivery. */
  ghost function DeliveredLinks(entries: seq<Entry>, replies: seq<Reply>, skills: seq<string>): set<string>
    requires |replies| == |entries|
  {
    set i | 0 <= i < |entries| && Matches(entries[i].title, skills) && Delivered(replies[i]) :: entries[i].link
  }

  /** The table as it stands when entry `i` is reached. */
  ghost function SeenBefore(entries: seq<Entry>, replies: seq<Reply>, seen: set<string>, skills: seq<string>, i: nat): set<string>
    requires |replies| == |entries|
    requires i <= |entries|
  {
    seen + DeliveredLinks(entries[..i], replies[..i], skills)
  }

  /**
   * The notifier calls of the first `n` entries, in feed order: one for each
   * entry whose title matches and whose link is not in the table when it is reached.
   */
  ghost function FreshMatchCalls(entries: seq<Entry>, replies: seq<Reply>, seen: set<string>, skills: seq<string>, n: nat): seq<Call>
    requires |replies| == |entries|
    requires n <= |entries|
  {
    if n == 0 then []
    else
      var e := entries[n - 1];
      FreshMatchCalls(entries, replies, seen, skills, n - 1)
        + (if Matches(e.title, skills) && e.link !in SeenBefore(entries, replies, seen, skills, n - 1)
           then [Call(e.title, e.link)] else [])
  }

  /** Splits the delivered links of a feed into those of its first entry and of the rest. */
  lemma DeliveredLinksCons(entries: seq<Entry>, replies: seq<Reply>, skills: seq<string>)
    requires |replies| == |entries| >= 1
    ensures DeliveredLinks(entries, replies, skills)
         == (if Matches(entries[0].title, skills) && Delivered(replies[0]) then {entries[0].link} else {})
          + DeliveredLinks(entries[1..], replies[1..], skills)
  {
    var head := if Matches(entries[0].title, skills) && Delivered(replies[0]) then {entries[0].link} else {};
    var tail := DeliveredLinks(entries[1..], replies[1..], skills);
    forall l | l in DeliveredLinks(entries, replies, skills)
      ensures l in head + tail
    {
      var i :| 0 <= i < |entries| && Matches(entries[i].title, skills) && Delivered(replies[i]) && entries[i].link == l;
      if i > 0 {
        assert entries[1..][i - 1] == entries[i];
        assert replies[1..][i - 1] == replies[i];
      }
    }
    forall l | l in tail
      ensures l in DeliveredLinks(entries, replies, skills)
    {
      var i :| 0 <= i < |entries| - 1 && Matches(entries[1..][i].title, skills) && Delivered(replies[1..][i]) && entries[1..][i].link == l;
      assert entries[i + 1] == entries[1..][i];
    }
  }

  /** A longer prefix has delivered at least the links of a shorter one. */
  lemma DeliveredLinksGrow(entries: seq<Entry>, replies: seq<Reply>, skills: seq<string>, i: nat, j: nat)
    requires |replies| == |entries|
    requires i <= j <= |entries|
    ensures DeliveredLinks(entries[..i], replies[..i], skills) <= DeliveredLinks(entries[..j], replies[..j], skills)
  {
    forall l | l in DeliveredLinks(entries[..i], replies[..i], skills)
      ensures l in DeliveredLinks(entries[..j], replies[..j], skills)
    {
      var k :| 0 <= k < i && Matches(entries[..i][k].title, skills) && Delivered(replies[..i][k]) && entries[..i][k].link == l;
      assert entries[..j][k] == entries[k] && replies[..j][k] == replies[k];
    }
  }

  /**
   * Processing the first entry and then reaching entry `k` of the rest leaves the
   * same table as reaching entry `k` of the whole feed.
   */
  lemma Advance(entries: seq<Entry>, replies: seq<Reply>, seen: set<string>, skills: seq<string>, k: nat)
    requires |replies| == |entries|
    requires 1 <= k <= |entries|
    ensures Step(seen, entries[0], replies[0], skills).seen + DeliveredLinks(entries[1..k], replies[1..k], skills)
         == SeenBefore(entries, replies, seen, skills, k)
  {
    DeliveredLinksCons(entries[..k], replies[..k], skills);
    assert entries[..k][1..] == entries[1..k];
    assert replies[..k][1..] == replies[1..k];
  }

  /**
   * The final table is the initial table plus the links of the processed
   * entries that matched and whose notification was delivered.
   */
  lemma {:induction false} SeenClosedForm(entries: seq<Entry>, replies: seq<Reply>, seen: set<string>, skills: seq<string>)
    requires |replies| == |entries|
    ensures Scan(entries, replies, seen, skills).seen
         == SeenBefore(entries, replies, seen, skills, |Scan(entries, replies, seen, skills).fates|)
    decreases |entries|
  {
    if |entries| > 0 {
      var step := Step(seen, entries[0], replies[0], skills);
      var r := Scan(entries, replies, seen, skills);
      var n := |r.fates|;
      Advance(entries, replies, seen, skills, n);
      if step.fate.Aborted? {
        assert r.seen == seen && n == 1;
        assert entries[1..1] == [] && replies[1..1] == [];
        assert DeliveredLinks(entries[1..1], replies[1..1], skills) == {};
      } else {
        var rest := Scan(entries[1..], replies[1..], step.seen, skills);
        assert r.seen == rest.seen && n == |rest.fates| + 1;
        SeenClosedForm(entries[1..], replies[1..], step.seen, skills);
        assert entries[1..][..n - 1] == entries[1..n];
        assert replies[1..][..n - 1] == replies[1..n];
        assert rest.seen == step.seen + DeliveredLinks(entries[1..n], replies[1..n], skills);
      }
    }
  }

  /** The fate of entry `i` is that of a single step against the table as it stands when `i` is reached. */
  lemma {:induction false} FateAt(entries: seq<Entry>, replies: seq<Reply>, seen: set<string>, skills: seq<string>, i: nat)
    requires |replies| == |entries|
    requires i < |Scan(entries, replies, seen, skills).fates|
    ensures Scan(entries, replies, seen, skills).fates[i]
         == Step(SeenBefore(entries, replies, seen, skills, i), entries[i], replies[i], skills).fate
    decreases i
  {
    if i == 0 {
      assert entries[..0] == [];
    } else {
      var step := Step(seen, entries[0], replies[0], skills);
      FateAt(entries[1..], replies[1..], step.seen, skills, i - 1);
      Advance(entries, replies, seen, skills, i);
      assert entries[1..][..i - 1] == entries[1..i];
      assert replies[1..][..i - 1] == replies[1..i];
    }
  }

  /** `FreshMatchCalls` seen from the first entry on. */
  lemma {:induction false} FreshMatchCallsCons(entries: seq<Entry>, replies: seq<Reply>, seen: set<string>, skills: seq<string>, n: nat)
    requires |replies| == |entries|
    requires 1 <= n <= |entries|
    ensures FreshMatchCalls(entries, replies, seen, skills, n)
         == CallFor(entries[0], Step(seen, entries[0], replies[0], skills).fate)
          + FreshMatchCalls(entries[1..], replies[1..], Step(seen, entries[0], replies[0], skills).seen, skills, n - 1)
    decreases n
  {
    var step := Step(seen, entries[0], replies[0], skills);
    if n == 1 {
      assert entries[..0] == [];
    } else {
      FreshMatchCallsCons(entries, replies, seen, skills, n - 1);
      Advance(entries, replies, seen, skills, n - 1);
      assert entries[1..][..n - 2] == entries[1..n - 1];
      assert replies[1..][..n - 2] == replies[1..n - 1];
    }
  }

  /**
   * The notifier calls of a scan are, in feed order, exactly the processed
   * entries that matched and were not in the table when reached, each called
   * with the title as given by the feed.
   */
  lemma {:induction false} CallsAreFreshMatches(entries: seq<Entry>, replies: seq<Reply>, seen: set<string>, skills: seq<string>)
    requires |replies| == |entries|
    ensures Scan(entries, replies, seen, skills).calls
         == FreshMatchCalls(entries, replies, seen, skills, |Scan(entries, replies, seen, skills).fates|)
    decreases |entries|
  {
    if |entries| > 0 {
      var step := Step(seen, entries[0], replies[0], skills);
      var n := |Scan(entries, replies, seen, skills).fates|;
      FreshMatchCallsCons(entries, replies, seen, skills, n);
      if !step.fate.Aborted? {
        CallsAreFreshMatches(entries[1..], replies[1..], step.seen, skills);
      }
    }
  }

  /** Membership in `FreshMatchCalls`, position by position. */
  lemma {:induction false} FreshMatchCallsMembers(entries: seq<Entry>, replies: seq<Reply>, seen: set<string>, skills: seq<string>, n: nat, c: Call)
    requires |replies| == |entries|
    requires n <= |entries|
    ensures c in FreshMatchCalls(entries, replies, seen, skills, n)
        <==> exists i :: 0 <= i < n && c == Call(entries[i].title, entries[i].link)
                      && Matches(entries[i].title, skills) && entries[i].link !in SeenBefore(entries, replies, seen, skills, i)
    decreases n
  {
    if n > 0 {
      FreshMatchCallsMembers(entries, replies, seen, skills, n - 1, c);
    }
  }
}

=== FILE: scan_loop.dfy ===
/**
 * The scan written as the loop of `scan_jobs`: one pass over the feed with a
 * mutable table, early exit when the notifier raises. It computes exactly the
 * result of the recursive `JobScan.Scan`.
 */
module ScanLoop {
  import opened Wrappers
  import opened Skills
  import opened SeenStore
  import opened Notifier
  import opened JobScan

  /** The result of a scan whose first calls and fates are already known. */
  function Resume(calls: seq<Call>, fates: seq<Fate>, rest: ScanResult): ScanResult {
    ScanResult(rest.seen, calls + rest.calls, fates + rest.fates, rest.completed)
  }

  /** Resuming twice is resuming once with the concatenated prefixes. */
  lemma ResumeTwice(calls: seq<Call>, fates: seq<Fate>, calls': seq<Call>, fates': seq<Fate>, rest: ScanResult)
    ensures Resume(calls, fates, Resume(calls', fates', rest)) == Resume(calls + calls', fates + fates', rest)
  {
    assert calls + (calls' + rest.calls) == (calls + calls') + rest.calls;
    assert fates + (fates' + rest.fates) == (fates + fates') + rest.fates;
  }

  /**
   * The body of the loop for one entry: look the link up, test the title, call
   * the notifier, and insert the link after a delivery.
   */
  method ProcessEntry(seen: set<string>, entry: Entry, reply: Reply, skills: seq<string>)
    returns (fate: Fate, seen': set<string>)
    ensures StepResult(fate, seen') == Step(seen, entry, reply, skills)
  {
    seen' := seen;
    if entry.link in seen {
      return AlreadySeen, seen;
    }
    var matched := MatchTitle(entry.title, skills);
    if !matched {
      return NoMatch, seen;
    }
    match reply
    case TransportError =>
      fate := Aborted;
    case HttpStatus(code) =>
      if code == 200 {
        var inserted := Insert(seen, entry.link);
        seen' := inserted.value;
        fate := Recorded;
      } else {
        fate := Rejected;
      }
  }

  /** One pass over `entries` starting from the table `seen0`. */
  method RunScan(entries: seq<Entry>, replies: seq<Reply>, seen0: set<string>, skills: seq<string>)
    returns (r: ScanResult)
    requires |replies| == |entries|
    ensures r == Scan(entries, replies, seen0, skills)
  {
    var seen := seen0;
    var calls: seq<Call> := [];
    var fates: seq<Fate> := [];
    var i := 0;
    while i < |entries|
      invariant 0 <= i <= |entries|
      invariant Scan(entries, replies, seen0, skills) == Resume(calls, fates, Scan(entries[i..], replies[i..], seen, skills))
    {
      var entry := entries[i];
      assert entries[i..][0] == entry && entries[i..][1..] == entries[i + 1..];
      assert replies[i..][0] == replies[i] && replies[i..][1..] == replies[i + 1..];
      ScanCons(entries[i..], replies[i..], seen, skills);
      var fate, seen' := ProcessEntry(seen, entry, replies[i], skills);
      var call := if fate.Notified() then [Call(entry.title, entry.link)] else [];
      if fate.Aborted? {
        return ScanResult(seen', calls + call, fates + [fate], false);
      }
      ResumeTwice(calls, fates, call, [fate], Scan(entries[i + 1..], replies[i + 1..], seen', skills));
      calls, fates, seen := calls + call, fates + [fate], seen';
      i := i + 1;
    }
    r := ScanResult(seen, calls, fates, true);
  }

  /** `scan_jobs`: open or create the table, then run the loop with the configured skills. */
  method RunScanJobs(entries: seq<Entry>, replies: seq<Reply>, existing: Option<set<string>>)
    returns (r: ScanResult)
    requires |replies| == |entries|
    ensures r == ScanJobs(entries, replies, existing)
  {
    var table := Open(existing);
    r := RunScan(entries, replies, table, TargetSkills);
  }
}

=== FILE: scan_properties.dfy ===
/**
 * What the scan promises, derived from the closed form of `JobScan.Scan`: skipped
 * links, commit-after-delivery, retry of failed alerts, at-most-once delivery,
 * and a second scan over the same feed being silent.
 */
module ScanProperties {
  import opened Skills
  import opened Notifier
  import opened JobScan

  /** The table when entry `i` is reached contains the initial table and is part of the final one. */
  lemma {:induction false} SeenBeforeBetween(entries: seq<Entry>, replies: seq<Reply>, seen: set<string>, skills: seq<string>, i: nat)
    requires |replies| == |entries|
    requires i <= |Scan(entries, replies, seen, skills).fates|
    ensures seen <= SeenBefore(entries, replies, seen, skills, i) <= Scan(entries, replies, seen, skills).seen
  {
    SeenClosedForm(entries, replies, seen, skills);
    DeliveredLinksGrow(entries, replies, skills, i, |Scan(entries, replies, seen, skills).fates|);
  }

  /**
   * A scan in which every matching entry is already in the table makes no
   * notifier call, changes nothing and reaches the end of the feed.
   */
  lemma {:induction false} QuietScan(entries: seq<Entry>, replies: seq<Reply>, seen: set<string>, skills: seq<string>)
    requires |replies| == |entries|
    requires forall i :: 0 <= i < |entries| && Matches(entries[i].title, skills) ==> entries[i].link in seen
    ensures Scan(entries, replies, seen, skills).seen == seen
    ensures Scan(entries, replies, seen, skills).calls == []
    ensures Scan(entries, replies, seen, skills).completed
    decreases |entries|
  {
    if |entries| > 0 {
      var step := Step(seen, entries[0], replies[0], skills);
      assert !step.fate.Notified() && step.seen == seen;
      forall i | 0 <= i < |entries| - 1 && Matches(entries[1..][i].title, skills)
        ensures entries[1..][i].link in seen
      {
        assert entries[1..][i] == entries[i + 1];
      }
      QuietScan(entries[1..], replies[1..], seen, skills);
    }
  }

  /**
   * Skip-on-seen: an entry is skipped exactly when its link is in the table as
   * it stands when the entry is reached, so in particular when it was in the
   * table at the start; and a feed whose links are all in the table leaves the
   * table as it was and sends nothing.
   */
  lemma {:induction false} SkipOnSeen(entries: seq<Entry>, replies: seq<Reply>, seen: set<string>, skills: seq<string>)
    requires |replies| == |entries|
    ensures forall i :: 0 <= i < |Scan(entries, replies, seen, skills).fates|
                    ==> (Scan(entries, replies, seen, skills).fates[i].AlreadySeen?
                         <==> entries[i].link in SeenBefore(entries, replies, seen, skills, i))
    ensures forall i :: 0 <= i < |Scan(entries, replies, seen, skills).fates| && entries[i].link in seen
                    ==> Scan(entries, replies, seen, skills).fates[i].AlreadySeen?
    ensures (forall i :: 0 <= i < |entries| ==> entries[i].link in seen)
        ==> Scan(entries, replies, seen, skills).seen == seen && Scan(entries, replies, seen, skills).calls == []
  {
    var r := Scan(entries, replies, seen, skills);
    forall i | 0 <= i < |r.fates|
      ensures r.fates[i].AlreadySeen? <==> entries[i].link in SeenBefore(entries, replies, seen, skills, i)
      ensures entries[i].link in seen ==> r.fates[i].AlreadySeen?
    {
      FateAt(entries, replies, seen, skills, i);
      SeenBeforeBetween(entries, replies, seen, skills, i);
    }
    if forall i :: 0 <= i < |entries| ==> entries[i].link in seen {
      QuietScan(entries, replies, seen, skills);
    }
  }

  /**
   * Every notifier call is for a title that matches, carries the title as the
   * feed gave it, and is for a link that was not in the table at the start.
   */
  lemma {:induction false} CallsMatchAndAreNew(entries: seq<Entry>, replies: seq<Reply>, seen: set<string>, skills: seq<string>)
    requires |replies| == |entries|
    ensures forall c :: c in Scan(entries, replies, seen, skills).calls
                    ==> Matches(c.title, skills) && c.link !in seen && Entry(c.title, c.link) in entries
  {
    var r := Scan(entries, replies, seen, skills);
    CallsAreFreshMatches(entries, replies, seen, skills);
    forall c | c in r.calls
      ensures Matches(c.title, skills) && c.link !in seen && Entry(c.title, c.link) in entries
    {
      FreshMatchCallsMembers(entries, replies, seen, skills, |r.fates|, c);
      var i :| 0 <= i < |r.fates| && c == Call(entries[i].title, entries[i].link)
               && Matches(entries[i].title, skills) && entries[i].link !in SeenBefore(entries, replies, seen, skills, i);
      assert entries[i] == Entry(c.title, c.link);
    }
  }

  /**
   * A link that is not in the table and belongs to no matching entry is not in
   * the table after the scan.
   */
  lemma {:induction false} UnmatchedNeverStored(entries: seq<Entry>, replies: seq<Reply>, seen: set<string>, skills: seq<string>, link: string)
    requires |replies| == |entries|
    requires link !in seen
    requires forall i :: 0 <= i < |entries| && entries[i].link == link ==> !Matches(entries[i].title, skills)
    ensures link !in Scan(entries, replies, seen, skills).seen
  {
    var n := |Scan(entries, replies, seen, skills).fates|;
    SeenClosedForm(entries, replies, seen, skills);
    forall i | 0 <= i < n && entries[..n][i].link == link
      ensures !Matches(entries[..n][i].title, skills)
    {
      assert entries[..n][i] == entries[i];
    }
  }

  /** The first matching, delivered entry for `link` within the first `k` entries. */
  lemma {:induction false} EarliestDelivery(entries: seq<Entry>, replies: seq<Reply>, skills: seq<string>, link: string, k: nat)
    returns (j: nat)
    requires |replies| == |entries|
    requires k < |entries| && entries[k].link == link && Matches(entries[k].title, skills) && Delivered(replies[k])
    ensures j <= k && entries[j].link == link && Matches(entries[j].title, skills) && Delivered(replies[j])
    ensures link !in DeliveredLinks(entries[..j], replies[..j], skills)
    decreases k
  {
    if link in DeliveredLinks(entries[..k], replies[..k], skills) {
      var k' :| 0 <= k' < k && Matches(entries[..k][k'].title, skills) && Delivered(replies[..k][k']) && entries[..k][k'].link == link;
      assert entries[..k][k'] == entries[k'] && replies[..k][k'] == replies[k'];
      j := EarliestDelivery(entries, replies, skills, link, k');
    } else {
      j := k;
    }
  }

  /**
   * Commit only after delivery: a link is added to the table by the scan exactly
   * when some processed entry with that link was recorded, and an entry is
   * recorded only when the notifier answered 200 for it.
   */
  lemma {:induction false} StoredIffRecorded(entries: seq<Entry>, replies: seq<Reply>, seen: set<string>, skills: seq<string>, link: string)
    requires |replies| == |entries|
    ensures link in Scan(entries, replies, seen, skills).seen && link !in seen
        <==> exists i :: 0 <= i < |Scan(entries, replies, seen, skills).fates| && entries[i].link == link
                      && Scan(entries, replies, seen, skills).fates[i].Recorded?
    ensures forall i :: 0 <= i < |Scan(entries, replies, seen, skills).fates|
                     && Scan(entries, replies, seen, skills).fates[i].Recorded?
                    ==> Delivered(replies[i]) && entries[i].link in Scan(entries, replies, seen, skills).seen
  {
    var r := Scan(entries, replies, seen, skills);
    var n := |r.fates|;
    SeenClosedForm(entries, replies, seen, skills);
    forall i | 0 <= i < n && r.fates[i].Recorded?
      ensures Delivered(replies[i]) && entries[i].link in r.seen && entries[i].link !in seen
    {
      FateAt(entries, replies, seen, skills, i);
      assert entries[..n][i] == entries[i] && replies[..n][i] == replies[i];
    }
    if link in r.seen && link !in seen {
      var k :| 0 <= k < n && Matches(entries[..n][k].title, skills) && Delivered(replies[..n][k]) && entries[..n][k].link == link;
      assert entries[..n][k] == entries[k] && replies[..n][k] == replies[k];
      var j := EarliestDelivery(entries, replies, skills, link, k);
      FateAt(entries, replies, seen, skills, j);
      assert r.fates[j].Recorded?;
    }
  }

  /**
   * A failed alert leaves its link out of the table, unless another entry with
   * the same link was recorded in the same scan.
   */
  lemma {:induction false} FailureLeavesLinkOut(entries: seq<Entry>, replies: seq<Reply>, seen: set<string>, skills: seq<string>, i: nat)
    requires |replies| == |entries|
    requires i < |Scan(entries, replies, seen, skills).fates|
    requires Scan(entries, replies, seen, skills).fates[i].Rejected? || Scan(entries, replies, seen, skills).fates[i].Aborted?
    requires forall j :: 0 <= j < |Scan(entries, replies, seen, skills).fates| && entries[j].link == entries[i].link
                      ==> !Scan(entries, replies, seen, skills).fates[j].Recorded?
    ensures entries[i].link !in Scan(entries, replies, seen, skills).seen
  {
    FateAt(entries, replies, seen, skills, i);
    SeenBeforeBetween(entries, replies, seen, skills, i);
    StoredIffRecorded(entries, replies, seen, skills, entries[i].link);
  }

  /**
   * Retry on the next scan: when the alert for an entry failed and no other
   * entry of the feed has its link, the link is absent after the scan, and a
   * second scan over the same feed that gets as far calls the notifier for it again.
   */
  lemma {:induction false} RetryOnNextScan(entries: seq<Entry>, replies: seq<Reply>, nextReplies: seq<Reply>, seen: set<string>, skills: seq<string>, i: nat)
    requires |replies| == |entries| && |nextReplies| == |entries|
    requires i < |Scan(entries, replies, seen, skills).fates|
    requires Scan(entries, replies, seen, skills).fates[i].Rejected? || Scan(entries, replies, seen, skills).fates[i].Aborted?
    requires forall j :: 0 <= j < |entries| && j != i ==> entries[j].link != entries[i].link
    requires i < |Scan(entries, nextReplies, Scan(entries, replies, seen, skills).seen, skills).fates|
    ensures entries[i].link !in Scan(entries, replies, seen, skills).seen
    ensures Scan(entries, nextReplies, Scan(entries, replies, seen, skills).seen, skills).fates[i].Notified()
    ensures Call(entries[i].title, entries[i].link) in Scan(entries, nextReplies, Scan(entries, replies, seen, skills).seen, skills).calls
  {
    var first := Scan(entries, replies, seen, skills);
    FailureLeavesLinkOut(entries, replies, seen, skills, i);
    FateAt(entries, replies, seen, skills, i);
    var second := Scan(entries, nextReplies, first.seen, skills);
    FateAt(entries, nextReplies, first.seen, skills, i);
    var before := SeenBefore(entries, nextReplies, first.seen, skills, i);
    forall j | 0 <= j < i
      ensures entries[..i][j].link != entries[i].link
    {
      assert entries[..i][j] == entries[j];
    }
    assert entries[i].link !in before;
    CallsAreFreshMatches(entries, nextReplies, first.seen, skills);
    FreshMatchCallsMembers(entries, nextReplies, first.seen, skills, |second.fates|, Call(entries[i].title, entries[i].link));
  }

  /**
   * At most once within a scan: once an entry is recorded, every later entry
   * with the same link is skipped as already seen.
   */
  lemma {:induction false} RecordedAtMostOnce(entries: seq<Entry>, replies: seq<Reply>, seen: set<string>, skills: seq<string>, i: nat, j: nat)
    requires |replies| == |entries|
    requires i < j < |Scan(entries, replies, seen, skills).fates|
    requires entries[i].link == entries[j].link
    requires Scan(entries, replies, seen, skills).fates[i].Recorded?
    ensures Scan(entries, replies, seen, skills).fates[j].AlreadySeen?
  {
    FateAt(entries, replies, seen, skills, i);
    FateAt(entries, replies, seen, skills, j);
    assert entries[..j][i] == entries[i] && replies[..j][i] == replies[i];
    assert entries[i].link in DeliveredLinks(entries[..j], replies[..j], skills);
  }

  /**
   * No alert twice across scans: a link recorded by one scan gets no notifier
   * call in a later scan that starts from its table, whatever the later feed.
   */
  lemma {:induction false} NeverNotifiedAgain(entries: seq<Entry>, replies: seq<Reply>, seen: set<string>, skills: seq<string>,
                           later: seq<Entry>, laterReplies: seq<Reply>, i: nat)
    requires |replies| == |entries| && |laterReplies| == |later|
    requires i < |Scan(entries, replies, seen, skills).fates|
    requires Scan(entries, replies, seen, skills).fates[i].Recorded?
    ensures forall c :: c in Scan(later, laterReplies, Scan(entries, replies, seen, skills).seen, skills).calls
                    ==> c.link != entries[i].link
  {
    StoredIffRecorded(entries, replies, seen, skills, entries[i].link);
    CallsMatchAndAreNew(later, laterReplies, Scan(entries, replies, seen, skills).seen, skills);
  }

  /**
   * Idempotence: after a scan that reached the end of the feed with every
   * alert delivered, scanning the same feed again sends nothing and leaves the
   * table as it is, whatever the notifier would answer.
   */
  lemma {:induction false} RescanIsSilent(entries: seq<Entry>, replies: seq<Reply>, nextReplies: seq<Reply>, seen: set<string>, skills: seq<string>)
    requires |replies| == |entries| && |nextReplies| == |entries|
    requires Scan(entries, replies, seen, skills).completed
    requires forall i :: 0 <= i < |Scan(entries, replies, seen, skills).fates| ==> !Scan(entries, replies, seen, skills).fates[i].Rejected?
    ensures Scan(entries, nextReplies, Scan(entries, replies, seen, skills).seen, skills).seen == Scan(entries, replies, seen, skills).seen
    ensures Scan(entries, nextReplies, Scan(entries, replies, seen, skills).seen, skills).calls == []
    ensures Scan(entries, nextReplies, Scan(entries, replies, seen, skills).seen, skills).completed
  {
    var first := Scan(entries, replies, seen, skills);
    AbortEndsScan(entries, replies, seen, skills);
    forall i | 0 <= i < |entries| && Matches(entries[i].title, skills)
      ensures entries[i].link in first.seen
    {
      FateAt(entries, replies, seen, skills, i);
      SeenBeforeBetween(entries, replies, seen, skills, i);
      if first.fates[i].Recorded? {
        StoredIffRecorded(entries, replies, seen, skills, entries[i].link);
      }
    }
    QuietScan(entries, nextReplies, first.seen, skills);
  }
}

=== FILE: scenarios.dfy ===
/** The scan evaluated on small concrete feeds with the configured skills. */
module Scenarios {
  import opened Wrappers
  import opened Skills
  import opened Notifier
  import opened JobScan

  /** The feed entry that matches ("python", "backend"). */
  const Backend := Entry("Remote Python Backend Engineer", "A")

  /** The feed entry that does not match. */
  const Office := Entry("Office Manager", "B")

  /** On an empty table the matching entry is notified, and recorded exactly when delivered. */
  lemma {:induction false} BackendStep(reply: Reply)
    requires reply.HttpStatus?
    ensures Step({}, Backend, reply, TargetSkills)
         == if Delivered(reply) then StepResult(Recorded, {"A"}) else StepResult(Rejected, {})
  {
    TwoSkillTitleMatches();
  }

  /** The non-matching entry is skipped whatever the table and the reply. */
  lemma {:induction false} OfficeStep(seen: set<string>, reply: Reply)
    requires "B" !in seen
    ensures Step(seen, Office, reply, TargetSkills) == StepResult(NoMatch, seen)
  {
    OfficeManagerDoesNotMatch();
  }

  /**
   * A feed with a matching and a non-matching entry, both delivered, on a fresh
   * database: one alert, for the matching entry, and only its link stored.
   */
  lemma MatchingEntryAlone()
    ensures ScanJobs([Backend, Office], [HttpStatus(200), HttpStatus(200)], None)
         == ScanResult({"A"}, [Call("Remote Python Backend Engineer", "A")], [Recorded, NoMatch], true)
  {
    BackendStep(HttpStatus(200));
    OfficeStep({"A"}, HttpStatus(200));
    ScanPair(Backend, Office, HttpStatus(200), HttpStatus(200), {}, TargetSkills);
  }

  /**
   * The same feed when the notifier answers 500 for the matching entry: the
   * alert is attempted and nothing is stored, so the next scan tries again.
   */
  lemma FailedAlertStoresNothing()
    ensures ScanJobs([Backend, Office], [HttpStatus(500), HttpStatus(200)], None)
         == ScanResult({}, [Call("Remote Python Backend Engineer", "A")], [Rejected, NoMatch], true)
  {
    BackendStep(HttpStatus(500));
    OfficeStep({}, HttpStatus(200));
    ScanPair(Backend, Office, HttpStatus(500), HttpStatus(200), {}, TargetSkills);
  }

  /**
   * An exception from the notifier ends the scan: a later matching entry is
   * never reached.
   */
  lemma ExceptionStopsScan()
    ensures ScanJobs([Entry("Remote Python Backend Engineer", "A"), Entry("AI engineer needed", "C")],
                     [TransportError, HttpStatus(200)], Some({"Z"}))
         == ScanResult({"Z"}, [Call("Remote Python Backend Engineer", "A")], [Aborted], false)
  {
    TwoSkillTitleMatches();
    assert Step({"Z"}, Entry("Remote Python Backend Engineer", "A"), TransportError, TargetSkills)
        == StepResult(Aborted, {"Z"});
  }

  /** A feed holding only a link already in the table sends nothing and stores nothing. */
  lemma StoredLinkIsSkipped(title: string, reply: Reply)
    ensures Scan([Entry(title, "https://x/1")], [reply], {"https://x/1"}, TargetSkills)
         == ScanResult({"https://x/1"}, [], [AlreadySeen], true)
  {
    assert [Entry(title, "https://x/1")][1..] == [];
  }
}

=== FILE: skills.dfy ===
/**
 * The skill filter of the job bot: an entry is worth an alert when one of the
 * configured skills appears anywhere inside its lowercased title. This is plain
 * substring containment, so a skill also matches inside a longer word.
 */
module Skills {
  import opened Text

  /** The configured skills, in configuration order; all of them lowercase. */
  const TargetSkills: seq<string> := [
    "python", "javascript", "react", "node.js", "express", "mysql", "mongodb",
    "php", "opencv", "tensorflow", "mediapipe", "langchain", "full-stack",
    "backend", "frontend", "ai", "computer vision"
  ]

  /** `any(skill in text for skill in skills)`, evaluated left to right. */
  predicate ContainsAny(text: string, skills: seq<string>)
    decreases |skills|
  {
    |skills| > 0 && (Occurs(skills[0], text) || ContainsAny(text, skills[1..]))
  }

  /** The filter applied to a feed entry: some skill is a substring of the lowercased title. */
  predicate Matches(title: string, skills: seq<string>) {
    ContainsAny(Lower(title), skills)
  }

  /** `ContainsAny` holds exactly when some skill of the list occurs in the text. */
  lemma {:induction false} ContainsAnyIff(text: string, skills: seq<string>)
    ensures ContainsAny(text, skills) <==> exists k :: 0 <= k < |skills| && Occurs(skills[k], text)
    decreases |skills|
  {
    if |skills| > 0 {
      ContainsAnyIff(text, skills[1..]);
      if k :| 0 < k < |skills| && Occurs(skills[k], text) {
        assert skills[1..][k - 1] == skills[k];
      }
    }
  }

  /**
   * Python's `pat in s` as a left-to-right search: `found` says whether `pat`
   * occurs in `s` at some position.
   */
  method Contains(pat: string, s: string) returns (found: bool)
    ensures found <==> exists i :: OccursAt(pat, s, i)
  {
    var i := 0;
    while i + |pat| <= |s|
      invariant 0 <= i
      invariant forall j :: 0 <= j < i ==> !OccursAt(pat, s, j)
    {
      if s[i..i + |pat|] == pat {
        assert OccursAt(pat, s, i);
        return true;
      }
      i := i + 1;
    }
    return false;
  }

  /**
   * The test on line 56 of the scan: lowercase the title, then try the skills
   * one by one, stopping at the first that is found.
   */
  method MatchTitle(title: string, skills: seq<string>) returns (matched: bool)
    ensures matched <==> exists k :: 0 <= k < |skills| && Occurs(skills[k], Lower(title))
    ensures matched == Matches(title, skills)
  {
    var lowered := Lower(title);
    ContainsAnyIff(lowered, skills);
    var k := 0;
    while k < |skills|
      invariant 0 <= k <= |skills|
      invariant forall j :: 0 <= j < k ==> !Occurs(skills[j], lowered)
    {
      var found := Contains(skills[k], lowered);
      OccursIffSomewhere(skills[k], lowered);
      if found {
        return true;
      }
      k := k + 1;
    }
    return false;
  }

  /** Every configured skill is lowercase and at least two characters long. */
  lemma TargetSkillsAreLowercase()
    ensures forall k :: 0 <= k < |TargetSkills| ==> IsLowercase(TargetSkills[k]) && |TargetSkills[k]| >= 2
  {
  }

  /**
   * The title is lowercased and the skills are not; since every configured skill
   * is already lowercase, lowercasing them too would change nothing.
   */
  lemma TargetSkillsUnchangedByLower()
    ensures forall k :: 0 <= k < |TargetSkills| ==> Lower(TargetSkills[k]) == TargetSkills[k]
  {
    TargetSkillsAreLowercase();
    forall k | 0 <= k < |TargetSkills|
      ensures Lower(TargetSkills[k]) == TargetSkills[k]
    {
      LowerOfLowercase(TargetSkills[k]);
    }
  }

  /**
   * Matching ignores letter case: a title matches exactly when some skill appears
   * in it with its letters in any mix of upper and lower case.
   */
  lemma {:induction false} MatchesInAnyCase(title: string, skills: seq<string>)
    ensures Matches(title, skills)
        <==> exists k, i :: 0 <= k < |skills| && OccursAtIgnoringCase(skills[k], title, i)
  {
    var t := Lower(title);
    ContainsAnyIff(t, skills);
    if Matches(title, skills) {
      var k :| 0 <= k < |skills| && Occurs(skills[k], t);
      OccursIffSomewhere(skills[k], t);
      var i :| OccursAt(skills[k], t, i);
      LowerSlice(title, i, i + |skills[k]|);
      assert OccursAtIgnoringCase(skills[k], title, i);
    }
    if k, i :| 0 <= k < |skills| && OccursAtIgnoringCase(skills[k], title, i) {
      LowerSlice(title, i, i + |skills[k]|);
      assert OccursAt(skills[k], t, i);
      OccursIffSomewhere(skills[k], t);
    }
  }

  /** A skill found inside a longer word still counts: "ai" matches in "email". */
  lemma SubstringInsideWordMatches()
    ensures Matches("we need an email developer", TargetSkills)
    ensures Matches("Domain Specialist", TargetSkills)
  {
    var t := Lower("we need an email developer");
    assert OccursAt("ai", t, 13);
    OccursIffSomewhere("ai", t);
    assert TargetSkills[15] == "ai";
    ContainsAnyIff(t, TargetSkills);
    var u := Lower("Domain Specialist");
    assert OccursAt("ai", u, 3);
    OccursIffSomewhere("ai", u);
    ContainsAnyIff(u, TargetSkills);
  }

  /** An upper-case skill is found. */
  lemma UpperCaseSkillMatches()
    ensures Matches("AI engineer needed", TargetSkills)
  {
    var t := Lower("AI engineer needed");
    assert OccursAt(TargetSkills[15], t, 0);
    OccursIffSomewhere(TargetSkills[15], t);
    ContainsAnyIff(t, TargetSkills);
  }

  /** A two-word skill is found as a phrase. */
  lemma PhraseSkillMatches()
    ensures Matches("seeking computer vision expert", TargetSkills)
  {
    var t := Lower("seeking computer vision expert");
    OccursAtByChars(TargetSkills[16], t, 8);
    OccursIffSomewhere(TargetSkills[16], t);
    ContainsAnyIff(t, TargetSkills);
  }

  /** A title naming two skills matches (once). */
  lemma TwoSkillTitleMatches()
    ensures Matches("Remote Python Backend Engineer", TargetSkills)
  {
    var t := Lower("Remote Python Backend Engineer");
    OccursAtByChars(TargetSkills[0], t, 7);
    OccursIffSomewhere(TargetSkills[0], t);
    ContainsAnyIff(t, TargetSkills);
  }

  /** A title without any skill in it does not match. */
  lemma OfficeManagerDoesNotMatch()
    ensures !Matches("Office Manager", TargetSkills)
  {
    var t := Lower("Office Manager");
    assert t == "office manager";
    forall k | 0 <= k < |TargetSkills|
      ensures !Occurs(TargetSkills[k], t)
    {
      AbsentWithoutLeadingPair(TargetSkills[k], t);
    }
    ContainsAnyIff(t, TargetSkills);
  }
}

=== FILE: store.dfy ===
/**
 * The `seen_jobs` table: one column `link`, declared PRIMARY KEY, holding the
 * links whose alert was delivered. It is modelled as a set of links.
 */
module SeenStore {
  import opened Wrappers

  /** The error a plain INSERT raises when the link is already a key of the table. */
  datatype StoreError = DuplicateLink(link: string)

  /**
   * `init_db`: CREATE TABLE IF NOT EXISTS. An existing table is opened with its
   * rows untouched; a missing one is created empty.
   */
  function Open(existing: Option<set<string>>): (table: set<string>)
    ensures existing.Some? ==> table == existing.value
    ensures existing.None? ==> |table| == 0
  {
    match existing
    case Some(rows) => rows
    case None => {}
  }

  /**
   * `INSERT INTO seen_jobs (link) VALUES (?)`: adds exactly one row, and fails
   * with a primary-key violation when the link is already stored.
   */
  function Insert(table: set<string>, link: string): (r: Result<set<string>, StoreError>)
    ensures r.Success? <==> link !in table
    ensures r.Success? ==> table <= r.value && link in r.value && |r.value| == |table| + 1
    ensures r.Failure? ==> r.error == DuplicateLink(link)
  {
    if link in table then Failure(DuplicateLink(link)) else Success(table + {link})
  }

  /** Unlike an insert-or-ignore, the same link cannot be inserted twice. */
  lemma InsertTwiceFails(table: set<string>, link: string)
    requires link !in table
    ensures Insert(table, link).Success?
    ensures Insert(Insert(table, link).value, link) == Failure(DuplicateLink(link))
  {
  }
}

=== FILE: text.dfy ===
/**
 * The string operations the skill matcher is built from: ASCII lowercasing
 * (`str.lower()`) and substring containment (Python's `needle in haystack`).
 */
module Text {

  /** True for the 26 upper-case ASCII letters, the only characters this model lowercases. */
  predicate IsUpperAscii(c: char) {
    'A' <= c <= 'Z'
  }

  /** A string with no upper-case ASCII letter in it. */
  predicate IsLowercase(s: string) {
    forall i :: 0 <= i < |s| ==> !IsUpperAscii(s[i])
  }

  /** Lowercases one character: 'A'..'Z' map to 'a'..'z', every other character is kept. */
  function LowerChar(c: char): (r: char)
    ensures !IsUpperAscii(r)
    ensures IsUpperAscii(c) ==> r as int == c as int + 32
    ensures !IsUpperAscii(c) ==> r == c
  {
    if IsUpperAscii(c) then (c as int - 'A' as int + 'a' as int) as char else c
  }

  /** Lowercases a string character by character. */
  function Lower(s: string): (r: string)
    ensures |r| == |s|
    ensures IsLowercase(r)
    ensures forall i :: 0 <= i < |s| ==> r[i] == LowerChar(s[i])
  {
    seq(|s|, i requires 0 <= i < |s| => LowerChar(s[i]))
  }

  /** `pat` occurs in `s` as a contiguous run starting at position `i`. */
  predicate OccursAt(pat: string, s: string, i: int) {
    0 <= i && i + |pat| <= |s| && s[i..i + |pat|] == pat
  }

  /** `pat` occurs in `s` at position `i` once `s` is lowercased, whatever the case of its letters. */
  predicate OccursAtIgnoringCase(pat: string, s: string, i: int) {
    0 <= i && i + |pat| <= |s| && Lower(s[i..i + |pat|]) == pat
  }

  /** `s` begins with `pat`. */
  predicate StartsWith(s: string, pat: string) {
    |pat| <= |s| && s[..|pat|] == pat
  }

  /**
   * Python's `pat in s` for strings, as a search: `s` starts with `pat`, or
   * `pat` is found further along.
   */
  predicate Occurs(pat: string, s: string)
    decreases |s|
  {
    StartsWith(s, pat) || (|s| > 0 && Occurs(pat, s[1..]))
  }

  /** The search finds `pat` exactly when `pat` is a contiguous substring of `s` at some position. */
  lemma {:induction false} OccursIffSomewhere(pat: string, s: string)
    ensures Occurs(pat, s) <==> exists i :: OccursAt(pat, s, i)
    decreases |s|
  {
    if StartsWith(s, pat) {
      assert OccursAt(pat, s, 0);
    } else if |s| > 0 {
      OccursIffSomewhere(pat, s[1..]);
      if Occurs(pat, s[1..]) {
        var i :| OccursAt(pat, s[1..], i);
        assert s[1..][i..i + |pat|] == s[i + 1..i + 1 + |pat|];
        assert OccursAt(pat, s, i + 1);
      }
      if i :| OccursAt(pat, s, i) {
        assert i != 0;
        assert s[i..i + |pat|] == s[1..][i - 1..i - 1 + |pat|];
        assert OccursAt(pat, s[1..], i - 1);
      }
    }
  }

  /** Lowercasing commutes with taking a slice. */
  lemma LowerSlice(s: string, i: int, j: int)
    requires 0 <= i <= j <= |s|
    ensures Lower(s)[i..j] == Lower(s[i..j])
  {
  }

  /** A string without upper-case letters is its own lowercase form. */
  lemma LowerOfLowercase(s: string)
    requires IsLowercase(s)
    ensures Lower(s) == s
  {
  }

  /** An occurrence can be established character by character. */
  lemma OccursAtByChars(pat: string, s: string, i: int)
    requires 0 <= i && i + |pat| <= |s|
    requires forall j :: 0 <= j < |pat| ==> s[i + j] == pat[j]
    ensures OccursAt(pat, s, i)
  {
    assert s[i..i + |pat|] == pat;
  }

  /**
   * A pattern whose first two characters never stand next to each other in `s`
   * does not occur in `s`.
   */
  lemma {:induction false} AbsentWithoutLeadingPair(pat: string, s: string)
    requires |pat| >= 2
    requires forall i :: 0 <= i < |s| - 1 ==> s[i] != pat[0] || s[i + 1] != pat[1]
    ensures !Occurs(pat, s)
  {
    forall i | 0 <= i <= |s| - |pat|
      ensures !OccursAt(pat, s, i)
    {
      assert s[i..i + |pat|][0] == s[i] && s[i..i + |pat|][1] == s[i + 1];
    }
    OccursIffSomewhere(pat, s);
  }
}

=== FILE: wrappers.dfy ===
/** Option and Result values used by the store and the scan. */
module Wrappers {

  /** A value that may be absent. */
  datatype Option<+T> = None | Some(value: T)

  /** The outcome of an operation that either produces a value or fails with an error. */
  datatype Result<+T, +E> = Success(value: T) | Failure(error: E)
}
